=== FILE: README.md ===
# CodeSync session server, modelled in Dafny

This project models the core of CodeSync's collaborative-editing backend. The
core is the websocket endpoint in `server/main.py`. Each connection joins a room
under a verified identity and receives an `init` snapshot of the room's files.
It then sends tagged messages. Each message updates the room's state in Redis
and is broadcast to everyone in the room. The state is:

- file contents;
- a version history of at most ten entries per file, newest first;
- one cursor position per participant.

An in-memory registry `rooms` maps each room to the live connections in it.

Redis is modelled as one record per room (`Documents.RoomStore`), and each
message kind is a pure function over that record. `Session.Server` combines
the registry with every room's record. `Session` has one function per event a
connection goes through: `Connect` (handshake and join), `InitMessage`,
`Receive` (one message) and `Leave` (disconnect).

Modules, leaf first:

- `Types`: identifiers, `Option`, and `Result`. A `Result` carries the Python
  exception (`KeyError`, `IndexError`) that the handler raises and does not catch.
- `Codec`: the file key `room:{room}:files:{name}`. Also Python's `str.split`,
  and the init snapshot's `key.split("files:")[1]`.
- `History`: `LPUSH` and `LTRIM 0 9` on a version list, and Python's
  negative-index lookup.
- `Documents`: the per-room record and one function per message kind.
- `Protocol`: inbound and outbound messages as datatypes.
- `Dispatch`: the receive-loop body. It applies one message to the store,
  adds a reply for `get_versions`, and produces the message to broadcast.
- `Registry`: the `rooms` dict. Covers registration, broadcast targets, and
  disconnect both as written and corrected.
- `Session`: the composed server.

Behaviour kept as the code has it:

- The broadcast comes after the whole `if/elif` chain, so every message is
  echoed to the room. This includes `get_versions` (which also gets a
  private reply) and unknown kinds.
- A room gets the default `main.js` only when the room is not in the registry
  and that one file is missing. Other files existing makes no difference, and
  a registered room whose `main.js` was deleted does not get it back.
- `revert_version` checks only `versions and index < len(versions)`. So a
  negative index counts from the end, and one below `-len` raises IndexError.
  That exception ends the session, and the connection stays registered.
- `rename_file` moves history only if the old name has some. Otherwise any
  history already stored under the new name stays there.
- A connection whose room entry is gone raises KeyError at the broadcast,
  after its store update has been applied.
- The snapshot name `split("files:")[1]` returns the name when neither
  the room id followed by ":" nor the file name contains `files:`. A room
  id that only ends in `files` already breaks this. A file name that contains
  the separator is cut short, and two such files can collapse into one
  snapshot entry.

## Model

| member | source | states |
|---|---|---|
| Codec.Split | server/main.py:49 | Python `split` on a non-empty separator: the pieces rejoined with the separator give back the input, and no piece contains the separator |
| Codec.SnapshotName | server/main.py:49 | `split("files:")[1]` yields a name exactly when the key holds the separator, otherwise Python's IndexError; the name holds no separator |
| Codec.SnapshotNameOfKey | server/main.py:45-49 | for a room id that holds no "files:" even with ":" appended, the name recovered from a file key is the file name up to its own first separator |
| Codec.SnapshotNameRoundTrip | server/main.py:45-49 | a key built as `room:{r}:files:{n}` yields `n` back whenever neither `r + ":"` nor `n` contains "files:" |
| Codec.FileKey | server/main.py:45 | the content key `room:{room}:files:{name}` is 12 characters longer than room id and name together, holds the room id from position 5, the separator right after the room id and one more character, and the name at its end |
| Codec.FileKeyLayout | server/main.py:45 | the content key is exactly "room:", the room id, ":", the separator "files:" and the file name, in that order |
| Codec.FileKeyInjective | server/main.py:45-46 | when neither room id followed by ":" nor file name holds "files:", two (room, name) pairs with the same content key are the same pair, so a per-room view of the file keys is exact |
| Codec.VersionKeysAlias | server/main.py:63 | counterexample: version keys are not unique per room even for names clear of "files:": room `r` with file `x:versions:y` and room `r:versions:x` with file `y` share one version list |
| Codec.CursorKeyAliasesVersionKey | server/main.py:63-74 | counterexample: the cursor hash of room `r:versions:x` has the key of the version list of room `r`'s file `x:cursors` |
| Codec.SnapshotNameRoomEndingInFiles | server/main.py:49 | counterexample: in a room whose id ends in "files", every file is reported under the empty name |
| Codec.SnapshotNameTruncatesAtSep | server/main.py:49 | counterexample: a file named `a + "files:" + b` is reported as `a` |
| Codec.InitFiles | server/main.py:49-50 | the snapshot dict has at most one entry per key enumerated |
| Codec.InitFilesFaithful | server/main.py:49-51 | when the enumeration lists exactly the room's files, no file name holds "files:" and the room id holds none even with ":" appended, the init snapshot equals the room's file map |
| Codec.InitFilesCollision | server/main.py:49-50 | two files whose names share the text before "files:" produce a single entry, holding the content of the one listed last |
| History.LPush | server/main.py:71 | `LPUSH`: the new record is the head and the old list follows unchanged |
| History.LTrim | server/main.py:72 | `LTRIM start stop` keeps the elements from start to stop inclusive, in order, and nothing else |
| History.Push | server/main.py:71-72 | `LPUSH` then `LTRIM 0 9`: the new record is the head, the previous history follows, and the length is min(old + 1, 10) |
| History.PyIndex | server/main.py:99 | Python's `versions[index]`: an index in `0..len-1` selects from the front, one in `-len..-1` from the end, anything else raises IndexError |
| History.PushTake | server/main.py:71-72 | pushing onto a ten-bounded history loses only the oldest entries: it equals the first ten of the new record followed by the unbounded list |
| Documents.Content | server/main.py:64 | the content `code_update` treats as overwritten: the stored text, or "" when the file key does not exist |
| Documents.Versions | server/main.py:92 | `LRANGE key 0 -1`: the stored list, or the empty list for a missing key; in a valid store at most ten records, non-empty exactly when a list is stored, and empty for a file that does not exist |
| Documents.WriteCode | server/main.py:61-72 | `code_update`: the file holds the new code; the newest version is the previous content (or "" if the file was absent) with the given time stamp; older versions follow, cut to ten in all; other files, other histories and cursors are unchanged |
| Documents.SetCursor | server/main.py:73-74 | `cursor_update` records the sender's position and changes no other cursor, file or history |
| Documents.CreateFile | server/main.py:75-76 | `new_file` writes "// New file\n" even over an existing file, changes no other file and leaves the histories alone |
| Documents.Rename | server/main.py:77-86 | `rename_file`: with the old file absent nothing changes; otherwise the new name holds the old content and the old name is gone; history moves only if the old name had one, else the histories are untouched |
| Documents.Delete | server/main.py:87-89 | `delete_file` removes the file and its history and changes nothing else |
| Documents.Revert | server/main.py:94-101 | `revert_version`: no change with empty history or index >= len; IndexError below -len; otherwise the file and the restored code are the selected version's code, with Python negative indexing; history and cursors never change |
| Documents.DeleteIdempotent | server/main.py:87-89 | deleting a file twice equals deleting it once |
| Documents.DeleteClearsHistory | server/main.py:87-92 | after a delete the file reads as having no content and no versions |
| Documents.WriteAllContent | server/main.py:61-65 | after a run of `code_update`s the file holds the last one's code (last write wins) |
| Documents.WriteAllHistory | server/main.py:61-72 | after a run of `code_update`s the history is the records they made, newest first, ahead of the older history, cut to ten |
| Documents.FreshFileHistory | server/main.py:61-72 | after K updates to a new file the history holds min(K, 10) records, newest first, each the content the next update overwrote, the oldest possible one "" |
| Documents.WriteCodeValid | server/main.py:71-72 | `code_update` keeps every history non-empty, at most ten long, and attached to an existing file |
| Documents.RenameValid | server/main.py:77-86 | rename keeps the same store invariant, stale history under the new name included |
| Dispatch.Handle | server/main.py:61-103 | one message: each kind changes the store by its own operation (`Documents.WriteCode`, `SetCursor`, `CreateFile`, `Rename`, `Delete`, `Revert`), `get_versions` and unknown kinds not at all; raises only for a revert index below -len; replies only to `get_versions`, with the stored history; echoes every kind verbatim except a revert that restored a version, whose echo carries the restored code in its code field |
| Dispatch.RevertEchoesRestoredCode | server/main.py:94-103 | a revert with an index in `-len..len-1` writes the selected version's code to the file and echoes the message with that code; with an empty history or an index at or past the end the store and the echoed message are unchanged |
| Dispatch.OnlyCodeUpdateRecords | server/main.py:73-101 | no kind but `code_update` adds version records: every history afterwards was already stored |
| Dispatch.ReadOnlyKinds | server/main.py:90-103 | `get_versions` and unknown kinds leave the store unchanged and are echoed as received |
| Dispatch.HandleKeepsValid | server/main.py:61-101 | every message kind keeps the store invariant |
| Dispatch.DeleteThenGetVersions | server/main.py:87-93 | `get_versions` after `delete_file` replies with an empty list |
| Dispatch.RevertKeepsHistory | server/main.py:94-101 | reverts never add a version record, so repeated reverts leave the history as it was |
| Registry.Register | server/main.py:43-48 | join creates the room entry if missing and maps the identity to the new handle, replacing an older one; other members and rooms are unchanged |
| Registry.Recipients | server/main.py:102-103 | the broadcast targets are exactly the room's registered handles, or KeyError when the room has no entry |
| Registry.Disconnect | server/main.py:104-109 | as written: KeyError with no change if the room or identity is missing; otherwise the identity is removed, an emptied room is deleted, and the rest are notified exactly when the room survives, else KeyError |
| Registry.DisconnectSafe | server/main.py:104-109 | corrected disconnect: a missing room or identity is a no-op, an emptied room is deleted and nobody is notified, and otherwise the room keeps exactly its other members and they are notified; other rooms are unchanged |
| Registry.LastMemberDisconnectRaises | server/main.py:105-108 | when the last member leaves, the as-written handler deletes the room and then raises KeyError |
| Registry.DisconnectSafeAgrees | server/main.py:104-109 | in every case the corrected disconnect leaves the same registry as the source, notifies the same handles whenever the source does not raise, and notifies nobody where it raises |
| Registry.StaleDisconnectEvictsNewSession | server/main.py:48-105 | after a re-join replaces a handle, the orphaned connection's disconnect removes the identity and so the newer connection's registration |
| Registry.RejoinedDisconnectRaises | server/main.py:48-105 | after that, the newer connection's own disconnect raises KeyError at `del rooms[room_id][uid]` and changes nothing, where the corrected disconnect is a silent no-op |
| Session.Connect | server/main.py:36-55 | failed verification closes with 1008 "Authentication failed"; identity mismatch closes with 1008 "Client ID mismatch"; otherwise the handle is registered, and main.js is present afterwards exactly if it was before or the room was unregistered, getting the default content only in the latter case; nothing else in any store changes |
| Session.InitMessage | server/main.py:49-51 | the init message carries at most one file per key enumerated, and when every file is enumerated, no file name holds "files:" and the room id holds none even with ":" appended, it carries exactly the room's file map |
| Session.Receive | server/main.py:57-103 | the store update happens first and persists; a `get_versions` reply goes to the sender alone and first; the echo then goes to every handle registered in the room, or KeyError when the room has no entry; an IndexError changes nothing and sends nothing |
| Session.Leave | server/main.py:104-109 | disconnect never touches the store and never raises: the room keeps exactly its other members and they get `user_left`, an emptied room is dropped with no message, and a missing room or identity changes nothing |
| Session.LeaveMatchesSource | server/main.py:104-109 | in every case Leave leaves the same registry as the source's handler and notifies exactly whom the source notifies; where the source raises (lines 105 and 108) it notifies nobody |
| Session.RevertReachesRoom | server/main.py:94-103 | a revert to an index in `-len..len-1` (a negative one counting from the end) reaches every member of the room with the restored code, which the file now holds |
| Session.FirstJoinsCreateOneDefault | server/main.py:43-51 | two first joins to an unknown room: the first writes the default main.js, the second writes nothing, and both get an init with just that file |
| Session.UpdateVisibleToLaterJoin | server/main.py:43-72 | after a `code_update`, a later joiner's init snapshot is the updated file map and shows the new code |
| Session.OrphanedSessionCrashes | server/main.py:102-109 | when an orphaned connection's disconnect has dropped the room, the newer connection's next update is stored and then raises KeyError at the broadcast |
| Session.ExampleJoin | server/main.py:43-51 | worked example: A joins the unknown room "r1", is its only member, and receives an init holding just the default main.js |
| Session.ExampleUpdate | server/main.py:61-72 | worked example: A's `code_update` of main.js to "x=1" raises nothing, is echoed to A alone, and leaves main.js "x=1" with the default content as its one version |
| Session.ExampleAfterUpdate | server/main.py:49-93 | worked example: a later snapshot shows "x=1" and `get_versions` replies with one record holding the default content |

## Left out

- The websocket transport: accepting connections, sending and receiving frames, and close handshakes. Broadcasts are modelled as `Send` values with a set of recipient handles. One failed send aborting the rest of a broadcast is not modelled.
- JSON encoding and decoding. Messages are structured values, so malformed frames, a missing "type" or field, and a non-integer `index` (each raises in Python) are not modelled.
- Firebase token verification is a foreign call. Its result is the `verified` parameter of `Session.Connect`, with None standing for any exception.
- `datetime.utcnow()`: the time stamp is a parameter.
- The Redis client. The store is modelled as a record per room, and `FileKeyInjective` shows this is exact for the content keys when no file name holds "files:" and no room id holds it even with ":" appended. It is not exact for the other keys: version lists and cursor hashes of different rooms can share a key even with clean names (`VersionKeysAlias`, `CursorKeyAliasesVersionKey`), and the model keeps such rooms apart. Also not modelled: the glob semantics of `KEYS` for room ids containing `*`, `?` or `[`, the order of `KEYS` (given as the `listing` parameter), Redis failures, and the error that Redis before 3.2 raised when renaming a key to itself.
- Concurrency: interleaved sessions, and the non-atomic content/history pairs in rename and delete. Each event is applied atomically.
- `/create-room` UUID minting and the CORS setup, which are outside the endpoint.

## Findings

| source | as written | input that shows it | evidently intended | confidence | as-written member | corrected member |
|---|---|---|---|---|---|---|
| server/main.py:105-108 | after deleting an emptied room entry, the handler reads `rooms[room_id]` again to send `user_left` | the last member of a room disconnects | notify nobody and finish without raising | high; not executed | Registry.Disconnect (exhibited by Registry.LastMemberDisconnectRaises) | Registry.DisconnectSafe (used by Session.Leave; Registry.DisconnectSafeAgrees and Session.LeaveMatchesSource prove it leaves the same registry and notifies the same handles wherever the source does not raise) |
| server/main.py:105 | `del rooms[room_id][uid]` assumes the identity is still registered | a participant joins twice, the orphaned first connection disconnects, then the second one disconnects | treat an identity that is already gone as having left, without raising | medium; not executed | Registry.Disconnect (exhibited by Registry.RejoinedDisconnectRaises) | Registry.DisconnectSafe (used by Session.Leave; Session.LeaveMatchesSource proves the same registry and notifications in every case) |

=== FILE: codec.dfy ===
/** The Redis key of a file, `room:{room}:files:{name}`, and the way the init
    snapshot recovers the name from it: Python's `key.split("files:")[1]`. */
module Codec {
  import opened Types

  /** The separator the snapshot splits keys on. */
  const Sep: string := "files:"

  predicate OccursAt(s: string, sep: string, i: nat) {
    i + |sep| <= |s| && s[i..i + |sep|] == sep
  }

  predicate Contains(s: string, sep: string) {
    exists i: nat | i <= |s| :: OccursAt(s, sep, i)
  }

  /** The leftmost occurrence of `sep` in `s` at or after `from`, as `str.find`. */
  function Find(s: string, sep: string, from: nat): (r: Option<nat>)
    ensures r.Some? ==> from <= r.value && OccursAt(s, sep, r.value)
    ensures forall j: nat :: from <= j && (r.None? || j < r.value) ==> !OccursAt(s, sep, j)
    decreases |s| - from
  {
    if from + |sep| > |s| then None
    else if OccursAt(s, sep, from) then Some(from)
    else Find(s, sep, from + 1)
  }

  /** `sep.join(parts)`. */
  function Join(parts: seq<string>, sep: string): string {
    if |parts| == 0 then ""
    else if |parts| == 1 then parts[0]
    else parts[0] + sep + Join(parts[1..], sep)
  }

  /** Python's `s.split(sep)` for a non-empty separator: cut at every
      leftmost non-overlapping occurrence. */
  function Split(s: string, sep: string): (parts: seq<string>)
    requires |sep| > 0
    ensures |parts| >= 1
    ensures Join(parts, sep) == s
    ensures forall k :: 0 <= k < |parts| ==> !Contains(parts[k], sep)
    decreases |s|
  {
    match Find(s, sep, 0)
    case None => [s]
    case Some(i) =>
      PrefixBeforeFirstIsFree(s, sep, i);
      var rest := Split(s[i + |sep|..], sep);
      assert s == s[..i] + sep + s[i + |sep|..] by {
        assert s == s[..i] + s[i..i + |sep|] + s[i + |sep|..];
      }
      assert ([s[..i]] + rest)[1..] == rest;
      [s[..i]] + rest
  }

  lemma PrefixBeforeFirstIsFree(s: string, sep: string, i: nat)
    requires |sep| > 0 && i <= |s|
    requires forall j: nat :: j < i ==> !OccursAt(s, sep, j)
    ensures !Contains(s[..i], sep)
  {
    forall j: nat
      ensures !OccursAt(s[..i], sep, j)
    {
      if j + |sep| <= i {
        assert s[..i][j..j + |sep|] == s[j..j + |sep|];
        assert !OccursAt(s, sep, j);
      }
    }
  }

  /** The key under which a room's file content is stored. */
  function FileKey(room: RoomId, name: FileName): (r: string)
    ensures |r| == |room| + |name| + 12
    ensures r[5..|room| + 5] == room && r[|room| + 12..] == name
    ensures OccursAt(r, Sep, |room| + 6)
  {
    var pre := "room:" + room + ":";
    assert (pre + Sep + name)[|pre|..|pre| + 6] == Sep;
    pre + Sep + name
  }

  /** The whole layout of a content key: "room:", the room id, ":", the
      separator, the file name. Kept apart from `FileKey`'s contract, whose
      users need only the positions of the room id, separator and name. */
  lemma FileKeyLayout(room: RoomId, name: FileName)
    ensures var k := FileKey(room, name);
      && k[..5] == "room:" && k[5..|room| + 5] == room && k[|room| + 5] == ':'
      && OccursAt(k, Sep, |room| + 6) && k[|room| + 12..] == name
  {
    var k := FileKey(room, name);
    assert k == "room:" + room + ":" + Sep + name;
  }

  /** The key of a file's version list. */
  function VersionKey(room: RoomId, name: FileName): string {
    "room:" + room + ":versions:" + name
  }

  /** The key of a room's cursor hash. */
  function CursorKey(room: RoomId): string {
    "room:" + room + ":cursors"
  }

  /** Version keys are not unique per room even for names clear of "files:":
      room `r` with file `x:versions:y` and room `r:versions:x` with file `y`
      share one version list. */
  lemma VersionKeysAlias(r: RoomId, x: string, y: string)
    ensures VersionKey(r, x + ":versions:" + y) == VersionKey(r + ":versions:" + x, y)
    ensures r != r + ":versions:" + x
  {
    assert VersionKey(r, x + ":versions:" + y) == "room:" + r + ":versions:" + x + ":versions:" + y;
  }

  /** Nor is the cursor hash: room `r:versions:x` keeps its cursors under the
      key of the version list of room `r`'s file `x:cursors`. */
  lemma CursorKeyAliasesVersionKey(r: RoomId, x: string)
    ensures CursorKey(r + ":versions:" + x) == VersionKey(r, x + ":cursors")
  {
    assert CursorKey(r + ":versions:" + x) == "room:" + r + ":versions:" + x + ":cursors";
  }

  /** The name the init snapshot reports for a key: `key.split("files:")[1]`,
      or None where Python raises IndexError (no separator in the key). */
  function SnapshotName(key: string): (r: Option<FileName>)
    ensures r.Some? <==> Contains(key, Sep)
    ensures r.Some? ==> !Contains(r.value, Sep)
  {
    var parts := Split(key, Sep);
    if |parts| >= 2 then Some(parts[1]) else None
  }

  /** Splitting at an occurrence with none before it yields the text before it
      followed by the split of the text after it. */
  lemma SplitAtFirst(s: string, sep: string, i: nat)
    requires |sep| > 0
    requires OccursAt(s, sep, i)
    requires forall j: nat :: j < i ==> !OccursAt(s, sep, j)
    ensures Split(s, sep) == [s[..i]] + Split(s[i + |sep|..], sep)
  {
    var f := Find(s, sep, 0);
    assert f == Some(i);
  }

  lemma SplitWithoutSep(s: string, sep: string)
    requires |sep| > 0
    requires !Contains(s, sep)
    ensures Split(s, sep) == [s]
  {
    var f := Find(s, sep, 0);
    assert f.None?;
  }

  /** A string in which the first character of the separator never appears
      before position `i` has no occurrence of the separator before `i`. */
  lemma NoLeadBefore(s: string, sep: string, i: nat)
    requires |sep| > 0 && i <= |s|
    requires sep[0] !in s[..i]
    ensures forall j: nat :: j < i ==> !OccursAt(s, sep, j)
  {
    forall j: nat | j < i
      ensures !OccursAt(s, sep, j)
    {
      if j + |sep| <= |s| {
        assert s[..i][j] == s[j];
        assert s[j..j + |sep|][0] == s[j];
      }
    }
  }

  /** A separator written right after a string that holds none is the first
      occurrence: no earlier occurrence can start inside that string, even one
      running into the separator, because 'f' appears in "files:" only first. */
  lemma SepFirstAfter(a: string, b: string)
    requires !Contains(a, Sep)
    ensures OccursAt(a + Sep + b, Sep, |a|)
    ensures forall j: nat :: j < |a| ==> !OccursAt(a + Sep + b, Sep, j)
  {
    var s := a + Sep + b;
    assert s[|a|..|a| + 6] == Sep;
    assert 'f' !in Sep[1..];
    forall j: nat | j < |a|
      ensures !OccursAt(s, Sep, j)
    {
      var w := s[j..j + 6];
      if j + 6 <= |a| {
        assert w == a[j..j + 6];
        assert !OccursAt(a, Sep, j);
      } else {
        assert w[|a| - j] == s[|a|] == 'f';
        assert Sep[|a| - j] == Sep[1..][|a| - j - 1];
      }
    }
  }

  /** Prefixing "room:" adds no separator, since it holds no 'f'. */
  lemma RoomPrefixClean(x: string)
    requires !Contains(x, Sep)
    ensures !Contains("room:" + x, Sep)
  {
    var s := "room:" + x;
    assert 'f' !in "room:";
    forall j: nat
      ensures !OccursAt(s, Sep, j)
    {
      if j + 6 <= |s| {
        var w := s[j..j + 6];
        if j < 5 {
          assert w[0] == s[j] == "room:"[j];
        } else {
          assert w == x[j - 5..j + 1];
          assert !OccursAt(x, Sep, j - 5);
        }
      }
    }
  }

  /** In a file key the first separator is the one written after the room id,
      provided the room id followed by ':' holds no separator of its own. */
  lemma FirstSepAfterRoom(room: RoomId, name: FileName)
    requires !Contains(room + ":", Sep)
    ensures OccursAt(FileKey(room, name), Sep, |room| + 6)
    ensures forall j: nat :: j < |room| + 6 ==> !OccursAt(FileKey(room, name), Sep, j)
  {
    var pre := "room:" + room + ":";
    assert pre == "room:" + (room + ":");
    RoomPrefixClean(room + ":");
    assert FileKey(room, name) == pre + Sep + name;
    SepFirstAfter(pre, name);
  }

  /** The snapshot name of any file key is the part of the file name before
      its own first separator. */
  lemma SnapshotNameOfKey(room: RoomId, name: FileName)
    requires !Contains(room + ":", Sep)
    ensures SnapshotName(FileKey(room, name)) == Some(Split(name, Sep)[0])
  {
    var key := FileKey(room, name);
    var p := |room| + 6;
    FirstSepAfterRoom(room, name);
    SplitAtFirst(key, Sep, p);
    assert key[p + 6..] == name;
  }

  /** Key round trip: the init snapshot reports a file under its own name. */
  lemma SnapshotNameRoundTrip(room: RoomId, name: FileName)
    requires !Contains(room + ":", Sep)
    requires !Contains(name, Sep)
    ensures SnapshotName(FileKey(room, name)) == Some(name)
  {
    SnapshotNameOfKey(room, name);
    SplitWithoutSep(name, Sep);
  }

  /** Under the same condition distinct (room, name) pairs have distinct keys,
      so a per-room view of the key space loses nothing. */
  lemma FileKeyInjective(r1: RoomId, n1: FileName, r2: RoomId, n2: FileName)
    requires !Contains(r1 + ":", Sep) && !Contains(n1, Sep)
    requires !Contains(r2 + ":", Sep) && !Contains(n2, Sep)
    requires FileKey(r1, n1) == FileKey(r2, n2)
    ensures r1 == r2 && n1 == n2
  {
    SnapshotNameRoundTrip(r1, n1);
    SnapshotNameRoundTrip(r2, n2);
    assert n1 == n2;
    assert |r1| == |r2|;
  }

  /** A room id that merely ends in "files" already breaks the round trip:
      "room:xfiles:files:n" splits into ["room:x", "", "n"], so every file of
      such a room is reported under the empty name. */
  lemma SnapshotNameRoomEndingInFiles(x: string, name: FileName)
    requires !Contains(x, Sep)
    ensures SnapshotName(FileKey(x + "files", name)) == Some("")
  {
    var pre := "room:" + x;
    RoomPrefixClean(x);
    var key := FileKey(x + "files", name);
    assert key == pre + Sep + (Sep + name);
    SepFirstAfter(pre, Sep + name);
    SplitAtFirst(key, Sep, |pre|);
    assert key[|pre| + 6..] == "" + Sep + name;
    assert !Contains("", Sep);
    SepFirstAfter("", name);
    SplitAtFirst("" + Sep + name, Sep, 0);
  }

  /** A file name holding the separator is reported truncated before it:
      the file "a.files:x" is listed as "a.". */
  lemma SnapshotNameTruncatesAtSep(room: RoomId, a: string, b: string)
    requires !Contains(room + ":", Sep)
    requires !Contains(a, Sep)
    ensures SnapshotName(FileKey(room, a + Sep + b)) == Some(a)
  {
    SnapshotNameOfKey(room, a + Sep + b);
    SepFirstAfter(a, b);
    SplitAtFirst(a + Sep + b, Sep, |a|);
    assert (a + Sep + b)[..|a|] == a;
  }

  /** Room id and every file name clear of the separator: the condition under
      which the snapshot reports each file under its own name. */
  predicate CleanNames(room: RoomId, files: map<FileName, string>) {
    && !Contains(room + ":", Sep)
    && forall n :: n in files ==> !Contains(n, Sep)
  }

  /** The name under which the init snapshot lists the file `name` of `room`. */
  function EntryName(room: RoomId, name: FileName): (r: FileName)
    ensures SnapshotName(FileKey(room, name)) == Some(r)
  {
    SnapshotName(FileKey(room, name)).value
  }

  /** The `files` payload of the init message: the dict comprehension over the
      keys `KEYS room:{room}:files:*` returns, in the order `listing` gives
      them; where two keys yield the same name the later one wins. */
  function InitFiles(room: RoomId, files: map<FileName, string>, listing: seq<FileName>): (r: map<FileName, string>)
    requires forall i :: 0 <= i < |listing| ==> listing[i] in files
    ensures |r| <= |listing|
    decreases |listing|
  {
    if |listing| == 0 then map[]
    else
      var n := listing[|listing| - 1];
      var prev := InitFiles(room, files, listing[..|listing| - 1]);
      assert |prev.Keys + {EntryName(room, n)}| <= |prev.Keys| + 1;
      prev[EntryName(room, n) := files[n]]
  }

  /** With a listing of exactly the room's files and names and room id clear of
      the separator, the init snapshot is the room's file map itself. */
  lemma {:induction false} InitFilesFaithful(room: RoomId, files: map<FileName, string>, listing: seq<FileName>)
    requires forall i :: 0 <= i < |listing| ==> listing[i] in files
    requires forall n :: n in files ==> n in listing
    requires !Contains(room + ":", Sep)
    requires forall n :: n in files ==> !Contains(n, Sep)
    ensures InitFiles(room, files, listing) == files
  {
    InitFilesListed(room, files, listing);
  }

  lemma {:induction false} InitFilesListed(room: RoomId, files: map<FileName, string>, listing: seq<FileName>)
    requires forall i :: 0 <= i < |listing| ==> listing[i] in files
    requires !Contains(room + ":", Sep)
    requires forall n :: n in files ==> !Contains(n, Sep)
    ensures InitFiles(room, files, listing) == Listed(files, listing)
    decreases |listing|
  {
    if |listing| > 0 {
      var n := listing[|listing| - 1];
      var front := listing[..|listing| - 1];
      InitFilesListed(room, files, front);
      SnapshotNameRoundTrip(room, n);
      ListedStep(files, listing);
    }
  }

  /** The entries of `files` whose names occur in `listing`. */
  function Listed(files: map<FileName, string>, listing: seq<FileName>): map<FileName, string> {
    map n | n in files && n in listing :: files[n]
  }

  lemma ListedStep(files: map<FileName, string>, listing: seq<FileName>)
    requires |listing| > 0 && listing[|listing| - 1] in files
    ensures var n := listing[|listing| - 1];
            Listed(files, listing) == Listed(files, listing[..|listing| - 1])[n := files[n]]
  {
    var n := listing[|listing| - 1];
    var front := listing[..|listing| - 1];
    assert listing == front + [n];
    assert Listed(files, listing).Keys == Listed(files, front).Keys + {n};
  }

  /** One more key enumerated: its entry is added, replacing any entry of the
      same name. */
  lemma InitFilesSnoc(room: RoomId, files: map<FileName, string>, listing: seq<FileName>, n: FileName)
    requires forall i :: 0 <= i < |listing| ==> listing[i] in files
    requires n in files
    ensures InitFiles(room, files, listing + [n]) == InitFiles(room, files, listing)[EntryName(room, n) := files[n]]
  {
    assert (listing + [n])[..|listing|] == listing;
  }

  /** Two files whose names share the text before a separator collapse into
      one snapshot entry: only the later-listed one reaches the client. */
  lemma InitFilesCollision(room: RoomId, a: string, b1: string, b2: string, c1: string, c2: string)
    requires !Contains(room + ":", Sep)
    requires !Contains(a, Sep)
    requires b1 != b2
    ensures var files := map[a + Sep + b1 := c1, a + Sep + b2 := c2];
            InitFiles(room, files, [a + Sep + b1, a + Sep + b2]) == map[a := c2]
  {
    var k1, k2 := a + Sep + b1, a + Sep + b2;
    SameStemDistinct(a, b1, b2);
    var files := map[k1 := c1, k2 := c2];
    SnapshotNameTruncatesAtSep(room, a, b1);
    SnapshotNameTruncatesAtSep(room, a, b2);
    CollidingPair(room, files, k1, k2, a);
  }

  lemma SameStemDistinct(a: string, b1: string, b2: string)
    requires b1 != b2
    ensures a + Sep + b1 != a + Sep + b2
  {
    assert (a + Sep + b1)[|a| + 6..] == b1 && (a + Sep + b2)[|a| + 6..] == b2;
  }

  /** Two enumerated keys reported under the same name leave one entry, the
      later key's. */
  lemma CollidingPair(room: RoomId, files: map<FileName, string>, k1: FileName, k2: FileName, e: FileName)
    requires k1 in files && k2 in files
    requires EntryName(room, k1) == e && EntryName(room, k2) == e
    ensures InitFiles(room, files, [k1, k2]) == map[e := files[k2]]
  {
    InitFilesSnoc(room, files, [], k1);
    InitFilesSnoc(room, files, [k1], k2);
    assert [] + [k1] == [k1] && [k1] + [k2] == [k1, k2];
  }

  /** A string without the letter 'f' cannot hold the separator. */
  lemma NoLeadNoSep(s: string)
    requires 'f' !in s
    ensures !Contains(s, Sep)
  {
    assert s[..|s|] == s;
    NoLeadBefore(s, Sep, |s|);
  }
}

=== FILE: dispatch.dfy ===
/** The body of the receive loop for one message: the store update its kind
    calls for, an optional reply to the sender, and the message that is then
    broadcast to the whole room. */
module Dispatch {
  import opened Types
  import opened History
  import opened Documents
  import opened Protocol

  datatype Handled = Handled(store: RoomStore, reply: Option<Outbound>, broadcast: Message)

  /** Apply one message from `uid` to its room's store. The broadcast sits
      after the whole if/elif chain, so every kind is echoed, `get_versions`
      and unknown kinds included; only a revert that restored a version
      rewrites the echoed message. A revert index below `-len` raises. */
  function Handle(st: RoomStore, uid: Uid, msg: Message, stamp: Timestamp): (r: Result<Handled>)
    ensures r.Err? <==>
      msg.RevertVersion? && 0 < |Versions(st, msg.file)| && msg.index < -|Versions(st, msg.file)|
    ensures r.Err? ==> r.error == IndexError
    ensures r.Ok? ==> (r.value.reply.Some? <==> msg.GetVersions?)
    ensures r.Ok? && msg.GetVersions? ==>
      r.value.reply == Some(VersionList(msg.file, Versions(st, msg.file))) && r.value.store == st
    ensures r.Ok? && !msg.RevertVersion? ==> r.value.broadcast == msg
    ensures r.Ok? && msg.CodeUpdate? ==> r.value.store == WriteCode(st, msg.file, msg.code, stamp)
    ensures r.Ok? && msg.CursorUpdate? ==> r.value.store == SetCursor(st, uid, msg.position)
    ensures r.Ok? && msg.NewFile? ==> r.value.store == CreateFile(st, msg.file)
    ensures r.Ok? && msg.RenameFile? ==> r.value.store == Rename(st, msg.oldName, msg.newName)
    ensures r.Ok? && msg.DeleteFile? ==> r.value.store == Delete(st, msg.file)
    ensures r.Ok? && msg.Other? ==> r.value.store == st
    ensures r.Ok? && msg.RevertVersion? ==>
      var rv := Revert(st, msg.file, msg.index);
      && rv.Ok?
      && r.value.store == rv.value.store
      && r.value.broadcast == (if rv.value.restored.Some? then msg.(codeField := rv.value.restored) else msg)
  {
    match msg
    case CodeUpdate(f, code) => Ok(Handled(WriteCode(st, f, code, stamp), None, msg))
    case CursorUpdate(p) => Ok(Handled(SetCursor(st, uid, p), None, msg))
    case NewFile(f) => Ok(Handled(CreateFile(st, f), None, msg))
    case RenameFile(a, b) => Ok(Handled(Rename(st, a, b), None, msg))
    case DeleteFile(f) => Ok(Handled(Delete(st, f), None, msg))
    case GetVersions(f) => Ok(Handled(st, Some(VersionList(f, Versions(st, f))), msg))
    case RevertVersion(f, index, _) =>
      (match Revert(st, f, index)
       case Err(e) => Err(e)
       case Ok(rv) =>
         var echoed := if rv.restored.Some? then msg.(codeField := rv.restored) else msg;
         Ok(Handled(rv.store, None, echoed)))
    case Other(_) => Ok(Handled(st, None, msg))
  }

  /** Only `code_update` adds a version record: under every other kind each
      history afterwards is one that was already stored (rename moves one,
      delete drops one, the rest leave them alone). */
  lemma OnlyCodeUpdateRecords(st: RoomStore, uid: Uid, msg: Message, stamp: Timestamp)
    requires !msg.CodeUpdate?
    requires Handle(st, uid, msg, stamp).Ok?
    ensures Handle(st, uid, msg, stamp).value.store.versions.Values <= st.versions.Values
  {
    var r := Handle(st, uid, msg, stamp).value.store;
    if msg.RenameFile? && msg.oldName in st.files && msg.oldName in st.versions {
      forall h | h in r.versions.Values
        ensures h in st.versions.Values
      {
        var g :| g in r.versions && r.versions[g] == h;
        if g != msg.newName {
          assert g in r.versions - {msg.oldName, msg.newName};
        }
      }
    } else if msg.DeleteFile? {
      forall h | h in r.versions.Values
        ensures h in st.versions.Values
      {
        var g :| g in r.versions && r.versions[g] == h;
        assert g in r.versions - {msg.file};
      }
    }
  }

  /** `get_versions` and kinds the server does not know change nothing. */
  lemma ReadOnlyKinds(st: RoomStore, uid: Uid, msg: Message, stamp: Timestamp)
    requires msg.GetVersions? || msg.Other?
    ensures Handle(st, uid, msg, stamp) ==
      Ok(Handled(st, if msg.GetVersions? then Some(VersionList(msg.file, Versions(st, msg.file))) else None, msg))
  {
  }

  /** Every message kind keeps the store invariant: histories stay non-empty
      and at most ten long, and belong to files that exist. */
  lemma HandleKeepsValid(st: RoomStore, uid: Uid, msg: Message, stamp: Timestamp)
    requires Valid(st)
    requires Handle(st, uid, msg, stamp).Ok?
    ensures Valid(Handle(st, uid, msg, stamp).value.store)
  {
    var r := Handle(st, uid, msg, stamp).value.store;
    match msg
    case CodeUpdate(f, code) => WriteCodeValid(st, f, code, stamp);
    case RenameFile(a, b) => RenameValid(st, a, b);
    case DeleteFile(f) =>
      assert r.versions.Keys <= r.files.Keys by {
        forall g | g in r.versions
          ensures g in r.files
        {
          assert g in r.versions - {f};
          assert g in r.files - {f};
        }
      }
    case RevertVersion(f, index, _) =>
      assert r.versions == st.versions;
      assert st.files.Keys <= r.files.Keys by {
        forall g | g in st.files
          ensures g in r.files
        {
          if g != f {
            assert g in st.files - {f};
          }
        }
      }
    case _ =>
  }

  /** A file's history after `delete_file` reads as empty, so a following
      `get_versions` replies with no records. */
  lemma DeleteThenGetVersions(st: RoomStore, uid: Uid, f: FileName, t1: Timestamp, t2: Timestamp)
    ensures var after := Handle(st, uid, DeleteFile(f), t1).value.store;
      Handle(after, uid, GetVersions(f), t2).value.reply == Some(VersionList(f, []))
  {
    DeleteClearsHistory(st, f);
  }

  /** A revert with an index in range restores the selected version and
      echoes it in the message's code field, so every member receives the code
      the file now holds; one with an empty history or an index at or past the
      end changes nothing and is echoed exactly as received. */
  lemma RevertEchoesRestoredCode(st: RoomStore, uid: Uid, f: FileName, i: int, c: Option<string>, t: Timestamp)
    ensures var h := Versions(st, f);
      var r := Handle(st, uid, RevertVersion(f, i, c), t);
      && (-|h| <= i < |h| ==>
            var v := if i >= 0 then h[i] else h[|h| + i];
            && r.Ok?
            && r.value.broadcast == RevertVersion(f, i, Some(v.code))
            && f in r.value.store.files && r.value.store.files[f] == v.code)
      && (|h| == 0 || i >= |h| ==> r == Ok(Handled(st, None, RevertVersion(f, i, c))))
  {
  }

  /** Reverting does not record the content it overwrites: repeated reverts
      leave the history exactly as it was. */
  lemma RevertKeepsHistory(st: RoomStore, uid: Uid, f: FileName, i: int, j: int, c: Option<string>, t: Timestamp)
    requires Handle(st, uid, RevertVersion(f, i, c), t).Ok?
    ensures var s1 := Handle(st, uid, RevertVersion(f, i, c), t).value.store;
      && s1.versions == st.versions
      && (Handle(s1, uid, RevertVersion(f, j, c), t).Ok? ==>
            Handle(s1, uid, RevertVersion(f, j, c), t).value.store.versions == st.versions)
  {
  }
}

=== FILE: documents.dfy ===
/** One room's persisted state in Redis, seen as a record: the file contents
    (`room:{r}:files:{name}`), the version lists (`room:{r}:versions:{name}`)
    and the cursor hash (`room:{r}:cursors`). Each function is one message
    kind's effect on that record. */
module Documents {
  import opened Types
  import opened History

  const MainFile: FileName := "main.js"

  /** What a first join writes into `main.js`. */
  const DefaultContent: string := "// Start coding here\n"

  /** What `new_file` writes. */
  const NewFileContent: string := "// New file\n"

  datatype RoomStore = RoomStore(
    files: map<FileName, string>,
    versions: map<FileName, seq<Version>>,
    cursors: map<Uid, Position>)

  /** A room nothing has been stored for. */
  const Empty: RoomStore := RoomStore(map[], map[], map[])

  /** The content `code_update` treats as overwritten: the stored text, or ""
      when the file key does not exist. */
  function Content(st: RoomStore, f: FileName): (r: string)
    ensures f in st.files ==> r == st.files[f]
    ensures f !in st.files ==> r == ""
  {
    if f in st.files then st.files[f] else ""
  }

  /** `LRANGE key 0 -1`: the stored history, newest first; an absent key reads
      as the empty list. */
  function Versions(st: RoomStore, f: FileName): (r: seq<Version>)
    ensures f in st.versions ==> r == st.versions[f]
    ensures f !in st.versions ==> r == []
    ensures Valid(st) ==> |r| <= MaxVersions && (|r| > 0 <==> f in st.versions)
    ensures Valid(st) && f !in st.files ==> r == []
  {
    if f in st.versions then st.versions[f] else []
  }

  /** What every reachable store satisfies: each history is a non-empty list
      of at most ten versions, and only files that exist have one. */
  predicate Valid(st: RoomStore) {
    && (forall f :: f in st.versions ==> WellFormed(st.versions[f]))
    && st.versions.Keys <= st.files.Keys
  }

  /** `code_update`: last write wins, and the overwritten content (or "") is
      pushed as the newest version, the oldest dropping out past ten. */
  function WriteCode(st: RoomStore, f: FileName, code: string, stamp: Timestamp): (r: RoomStore)
    ensures f in r.files && r.files[f] == code
    ensures r.files - {f} == st.files - {f}
    ensures f in r.versions
    ensures |Versions(r, f)| == Min(|Versions(st, f)| + 1, MaxVersions)
    ensures Versions(r, f)[0] == Version(Content(st, f), stamp)
    ensures Versions(r, f)[1..] == Take(Versions(st, f), MaxVersions - 1)
    ensures r.versions - {f} == st.versions - {f}
    ensures r.cursors == st.cursors
  {
    var prior := Version(Content(st, f), stamp);
    st.(files := st.files[f := code],
        versions := st.versions[f := Push(Versions(st, f), prior)])
  }

  /** `cursor_update`: the sender's latest position replaces its previous one. */
  function SetCursor(st: RoomStore, uid: Uid, position: Position): (r: RoomStore)
    ensures uid in r.cursors && r.cursors[uid] == position
    ensures r.cursors - {uid} == st.cursors - {uid}
    ensures r.files == st.files && r.versions == st.versions
  {
    st.(cursors := st.cursors[uid := position])
  }

  /** `new_file`: the placeholder content, even over an existing file; the
      file's history is left as it was. */
  function CreateFile(st: RoomStore, f: FileName): (r: RoomStore)
    ensures f in r.files && r.files[f] == NewFileContent
    ensures r.files - {f} == st.files - {f}
    ensures r.versions == st.versions && r.cursors == st.cursors
  {
    st.(files := st.files[f := NewFileContent])
  }

  /** `rename_file`: only when the old file exists, its content moves to the
      new name (replacing whatever was there, as `RENAME` does) and its history
      moves too if it has one; without one, any history under the new name
      stays. */
  function Rename(st: RoomStore, a: FileName, b: FileName): (r: RoomStore)
    ensures a !in st.files ==> r == st
    ensures a in st.files ==>
      && b in r.files && r.files[b] == st.files[a]
      && (a != b ==> a !in r.files)
      && r.files - {a, b} == st.files - {a, b}
    ensures a in st.files && a in st.versions ==>
      && b in r.versions && r.versions[b] == st.versions[a]
      && (a != b ==> a !in r.versions)
      && r.versions - {a, b} == st.versions - {a, b}
    ensures a !in st.versions ==> r.versions == st.versions
    ensures r.cursors == st.cursors
  {
    if a !in st.files then st
    else
      var files := (st.files - {a})[b := st.files[a]];
      var versions := if a in st.versions then (st.versions - {a})[b := st.versions[a]] else st.versions;
      st.(files := files, versions := versions)
  }

  /** `delete_file`: content and history both go; nothing else changes. */
  function Delete(st: RoomStore, f: FileName): (r: RoomStore)
    ensures f !in r.files && f !in r.versions
    ensures r.files - {f} == st.files - {f}
    ensures r.versions - {f} == st.versions - {f}
    ensures r.cursors == st.cursors
  {
    st.(files := st.files - {f}, versions := st.versions - {f})
  }

  /** The outcome of `revert_version` on the store: the new store and, when a
      version was restored, its code (which the outgoing message then carries). */
  datatype Reversion = Reversion(store: RoomStore, restored: Option<string>)

  /** `revert_version`: guarded only by `versions and index < len(versions)`,
      so a negative index selects from the end and one below `-len` raises.
      The restored content is not itself pushed as a version. */
  function Revert(st: RoomStore, f: FileName, index: int): (r: Result<Reversion>)
    ensures |Versions(st, f)| == 0 || index >= |Versions(st, f)| ==>
      r == Ok(Reversion(st, None))
    ensures 0 < |Versions(st, f)| && index < -|Versions(st, f)| ==>
      r == Err(IndexError)
    ensures 0 <= index < |Versions(st, f)| ==>
      r.Ok? && r.value.restored == Some(Versions(st, f)[index].code)
    ensures -|Versions(st, f)| <= index < 0 ==>
      r.Ok? && r.value.restored == Some(Versions(st, f)[|Versions(st, f)| + index].code)
    ensures r.Ok? && r.value.restored.Some? ==>
      && f in r.value.store.files && r.value.store.files[f] == r.value.restored.value
      && r.value.store.files - {f} == st.files - {f}
    ensures r.Ok? ==> r.value.store.versions == st.versions && r.value.store.cursors == st.cursors
  {
    var h := Versions(st, f);
    if |h| == 0 || index >= |h| then Ok(Reversion(st, None))
    else
      match PyIndex(h, index)
      case Err(e) => Err(e)
      case Ok(v) => Ok(Reversion(st.(files := st.files[f := v.code]), Some(v.code)))
  }

  /** Deleting twice is deleting once. */
  lemma DeleteIdempotent(st: RoomStore, f: FileName)
    ensures Delete(Delete(st, f), f) == Delete(st, f)
  {
  }

  /** After a delete the file reads as having no history. */
  lemma DeleteClearsHistory(st: RoomStore, f: FileName)
    ensures Versions(Delete(st, f), f) == [] && Content(Delete(st, f), f) == ""
  {
  }

  /** One edit a client sends: new content and the time the server saw it. */
  datatype Edit = Edit(code: string, stamp: Timestamp)

  /** A run of `code_update`s to one file, applied in order. */
  function WriteAll(st: RoomStore, f: FileName, edits: seq<Edit>): RoomStore
    decreases |edits|
  {
    if |edits| == 0 then st
    else
      var e := edits[|edits| - 1];
      WriteCode(WriteAll(st, f, edits[..|edits| - 1]), f, e.code, e.stamp)
  }

  /** The versions a run of edits records, oldest first: each edit records the
      content just before it, the first one the file's content beforehand. */
  function Priors(first: string, edits: seq<Edit>): (r: seq<Version>)
    ensures |r| == |edits|
    ensures forall i :: 0 < i < |edits| ==> r[i] == Version(edits[i - 1].code, edits[i].stamp)
    ensures |edits| > 0 ==> r[0] == Version(first, edits[0].stamp)
    decreases |edits|
  {
    if |edits| == 0 then []
    else
      var front := edits[..|edits| - 1];
      var before := if |front| == 0 then first else front[|front| - 1].code;
      Priors(first, front) + [Version(before, edits[|edits| - 1].stamp)]
  }

  /** The content a run of edits leaves is the last edit's (last write wins). */
  lemma WriteAllContent(st: RoomStore, f: FileName, edits: seq<Edit>)
    ensures Content(WriteAll(st, f, edits), f) ==
      if |edits| == 0 then Content(st, f) else edits[|edits| - 1].code
  {
  }

  lemma PriorsSnoc(first: string, edits: seq<Edit>)
    requires |edits| > 0
    ensures var front := edits[..|edits| - 1];
      Priors(first, edits) == Priors(first, front) +
        [Version(if |front| == 0 then first else front[|front| - 1].code, edits[|edits| - 1].stamp)]
  {
  }

  /** One more push onto a ten-bounded history built from records `p` ahead of
      `h0` is the bounded history built from `p` extended by the new record. */
  lemma HistoryStep(p: seq<Version>, h0: seq<Version>, v: Version)
    ensures Push(Take(Reverse(p) + h0, MaxVersions), v) == Take(Reverse(p + [v]) + h0, MaxVersions)
  {
    PushTake(Reverse(p) + h0, v);
    ReverseSnoc(p, v);
    assert [v] + (Reverse(p) + h0) == Reverse(p + [v]) + h0;
  }

  /** The history after a run of edits is the records they made, newest first,
      ahead of the older history, cut to ten. */
  lemma {:induction false} WriteAllHistory(st: RoomStore, f: FileName, edits: seq<Edit>)
    requires |Versions(st, f)| <= MaxVersions
    ensures Versions(WriteAll(st, f, edits), f) ==
      Take(Reverse(Priors(Content(st, f), edits)) + Versions(st, f), MaxVersions)
    decreases |edits|
  {
    var h0 := Versions(st, f);
    var c0 := Content(st, f);
    if |edits| == 0 {
      assert Take(h0, MaxVersions) == h0;
    } else {
      var front := edits[..|edits| - 1];
      var e := edits[|edits| - 1];
      WriteAllHistory(st, f, front);
      var mid := WriteAll(st, f, front);
      WriteAllContent(st, f, front);
      var v := Version(Content(mid, f), e.stamp);
      assert Versions(WriteAll(st, f, edits), f) == Push(Versions(mid, f), v);
      PriorsSnoc(c0, edits);
      HistoryStep(Priors(c0, front), h0, v);
    }
  }

  lemma ReverseSnoc<T>(p: seq<T>, v: T)
    ensures Reverse(p + [v]) == [v] + Reverse(p)
  {
    var l := Reverse(p + [v]);
    var r := [v] + Reverse(p);
    assert |l| == |r|;
    forall i | 0 <= i < |l|
      ensures l[i] == r[i]
    {
      if i > 0 {
        assert r[i] == Reverse(p)[i - 1];
      }
    }
  }

  /** After K edits to a file that did not exist, its history holds min(K, 10)
      records, newest first, each the content the next edit overwrote (the
      oldest one the empty string). */
  lemma FreshFileHistory(st: RoomStore, f: FileName, edits: seq<Edit>)
    requires f !in st.files && f !in st.versions
    ensures var h := Versions(WriteAll(st, f, edits), f);
      && |h| == Min(|edits|, MaxVersions)
      && forall j :: 0 <= j < |h| ==>
           h[j] == Version(if j == |edits| - 1 then "" else edits[|edits| - 2 - j].code,
                           edits[|edits| - 1 - j].stamp)
  {
    var h := Versions(WriteAll(st, f, edits), f);
    var p := Priors("", edits);
    FreshHistoryReversed(st, f, edits);
    forall j | 0 <= j < |h|
      ensures h[j] == Version(if j == |edits| - 1 then "" else edits[|edits| - 2 - j].code,
                              edits[|edits| - 1 - j].stamp)
    {
      assert h[j] == Reverse(p)[j] == p[|edits| - 1 - j];
    }
  }

  lemma FreshHistoryReversed(st: RoomStore, f: FileName, edits: seq<Edit>)
    requires f !in st.files && f !in st.versions
    ensures Versions(WriteAll(st, f, edits), f) == Take(Reverse(Priors("", edits)), MaxVersions)
  {
    WriteAllHistory(st, f, edits);
    assert Versions(st, f) == [] && Content(st, f) == "";
    assert Reverse(Priors("", edits)) + [] == Reverse(Priors("", edits));
  }

  /** The store invariant holds of every store the message kinds produce. */
  lemma WriteCodeValid(st: RoomStore, f: FileName, code: string, stamp: Timestamp)
    requires Valid(st)
    ensures Valid(WriteCode(st, f, code, stamp))
  {
    var r := WriteCode(st, f, code, stamp);
    PushWellFormed(Versions(st, f), Version(Content(st, f), stamp));
    forall g | g in r.versions
      ensures WellFormed(r.versions[g])
    {
      if g != f {
        assert g in (r.versions - {f});
      }
    }
    assert r.versions.Keys <= r.files.Keys by {
      forall g | g in r.versions ensures g in r.files {
        if g != f {
          assert g in (r.versions - {f});
          assert g in (st.files - {f});
          assert g in (r.files - {f});
        }
      }
    }
  }

  lemma RenameValid(st: RoomStore, a: FileName, b: FileName)
    requires Valid(st)
    ensures Valid(Rename(st, a, b))
  {
  }
}

=== FILE: history.dfy ===
/** The per-file version list: a Redis list kept newest-first and cut to the
    last ten entries by `LPUSH` followed by `LTRIM key 0 9`. */
module History {
  import opened Types

  /** One version record: the content a `code_update` overwrote, and when. */
  datatype Version = Version(code: string, timestamp: Timestamp)

  /** How many versions a file keeps. */
  const MaxVersions: nat := 10

  /** Redis `LPUSH`: the new element becomes the head of the list. */
  function LPush(l: seq<Version>, v: Version): (r: seq<Version>)
    ensures |r| == |l| + 1 && r[0] == v && r[1..] == l
  {
    [v] + l
  }

  /** Redis `LTRIM key start stop` for non-negative bounds: keep the elements
      from `start` to `stop` inclusive; an empty range empties the list. */
  function LTrim(l: seq<Version>, start: nat, stop: nat): (r: seq<Version>)
    ensures |r| <= |l|
    ensures forall i :: 0 <= i < |r| ==> start + i <= stop && start + i < |l| && r[i] == l[start + i]
    ensures start <= stop && start < |l| ==> |r| == Min(stop + 1, |l|) - start
  {
    if start > stop || start >= |l| then [] else l[start..Min(stop + 1, |l|)]
  }

  /** What a `code_update` does to the history of its file. */
  function Push(h: seq<Version>, v: Version): (r: seq<Version>)
    ensures |r| == Min(|h| + 1, MaxVersions)
    ensures r[0] == v
    ensures r[1..] == Take(h, MaxVersions - 1)
  {
    LTrim(LPush(h, v), 0, MaxVersions - 1)
  }

  /** A stored history: Redis deletes an emptied list, and the trim bounds it. */
  predicate WellFormed(h: seq<Version>) {
    1 <= |h| <= MaxVersions
  }

  lemma PushWellFormed(h: seq<Version>, v: Version)
    ensures WellFormed(Push(h, v))
  {
  }

  /** Pushing onto the first ten entries of a list keeps the first ten entries
      of the list with the new head: the ring buffer forgets only the oldest. */
  lemma PushTake(x: seq<Version>, v: Version)
    ensures Push(Take(x, MaxVersions), v) == Take([v] + x, MaxVersions)
  {
    var l := Push(Take(x, MaxVersions), v);
    var t := Take([v] + x, MaxVersions);
    assert |l| == |t|;
    forall i | 0 <= i < |l|
      ensures l[i] == t[i]
    {
      if i > 0 {
        assert l[i] == l[1..][i - 1];
      }
    }
  }

  /** Python's `versions[index]`: a negative index counts from the end, and an
      index outside `-len .. len-1` raises IndexError. */
  function PyIndex(h: seq<Version>, index: int): (r: Result<Version>)
    ensures r.Ok? <==> -|h| <= index < |h|
    ensures r.Err? ==> r.error == IndexError
    ensures 0 <= index < |h| ==> r.value == h[index]
    ensures -|h| <= index < 0 ==> r.value == h[|h| + index]
  {
    if 0 <= index < |h| then Ok(h[index])
    else if -|h| <= index < 0 then Ok(h[|h| + index])
    else Err(IndexError)
  }
}

=== FILE: protocol.dfy ===
/** The wire vocabulary of a session, as structured values: the JSON text of
    each frame is abstracted away. */
module Protocol {
  import opened Types
  import opened History

  /** An inbound message, classified by its "type" field. A kind the server
      does not know is kept as `Other` and, like every other kind, echoed. */
  datatype Message =
    | CodeUpdate(file: FileName, code: string)
    | CursorUpdate(position: Position)
    | NewFile(file: FileName)
    | RenameFile(oldName: FileName, newName: FileName)
    | DeleteFile(file: FileName)
    | GetVersions(file: FileName)
      /** `codeField` is whatever "code" field the client sent, if any; a
          successful revert overwrites it before the echo. */
    | RevertVersion(file: FileName, index: int, codeField: Option<string>)
    | Other(kind: string)

  /** A message the server sends. */
  datatype Outbound =
    | Init(files: map<FileName, string>)
    | VersionList(file: FileName, versions: seq<Version>)
    | Echo(message: Message)
    | UserLeft(clientId: Uid)

  /** One message sent to every connection in `to`. */
  datatype Send = Send(to: set<Handle>, message: Outbound)
}

=== FILE: registry.dfy ===
/** The in-memory `rooms` dict: room id to the connections registered in it,
    keyed by participant identity. Nothing here is persisted. */
module Registry {
  import opened Types

  type Members = map<Uid, Handle>
  type Rooms = map<RoomId, Members>

  /** Registration at join: the room entry is created if missing, and the
      participant's handle replaces any earlier handle for the same identity. */
  function Register(rooms: Rooms, room: RoomId, uid: Uid, h: Handle): (r: Rooms)
    ensures room in r && uid in r[room] && r[room][uid] == h
    ensures room in rooms ==> r[room] - {uid} == rooms[room] - {uid}
    ensures room !in rooms ==> r[room].Keys == {uid}
    ensures r - {room} == rooms - {room}
  {
    var members := if room in rooms then rooms[room] else map[];
    rooms[room := members[uid := h]]
  }

  /** `rooms[room_id].values()`: the broadcast targets, or KeyError when the
      room has no entry. */
  function Recipients(rooms: Rooms, room: RoomId): (r: Result<set<Handle>>)
    ensures r.Ok? <==> room in rooms
    ensures r.Err? ==> r.error == KeyError
    ensures r.Ok? ==> forall u :: u in rooms[room] ==> rooms[room][u] in r.value
    ensures r.Ok? ==> forall h :: h in r.value ==> exists u :: u in rooms[room] && rooms[room][u] == h
  {
    if room in rooms then Ok(rooms[room].Values) else Err(KeyError)
  }

  /** The registry after a disconnect, and the connections told `user_left`
      (or the exception raised before anyone was told). */
  datatype Departure = Departure(rooms: Rooms, notified: Result<set<Handle>>)

  /** The disconnect handler as written: `del rooms[room_id][uid]` raises
      KeyError when the room or the identity is missing; an emptied room is
      deleted; then `rooms[room_id]` is read again to notify the rest, which
      raises KeyError precisely when the room was just deleted. */
  function Disconnect(rooms: Rooms, room: RoomId, uid: Uid): (r: Departure)
    ensures room !in rooms || uid !in rooms[room] ==> r == Departure(rooms, Err(KeyError))
    ensures room in rooms && uid in rooms[room] ==>
      && r.rooms - {room} == rooms - {room}
      && (room in r.rooms <==> rooms[room].Keys != {uid})
      && (room in r.rooms ==> r.rooms[room] == rooms[room] - {uid})
      && (r.notified.Ok? <==> room in r.rooms)
      && (r.notified.Ok? ==> r.notified.value == r.rooms[room].Values)
      && (r.notified.Err? ==> r.notified.error == KeyError)
  {
    if room !in rooms || uid !in rooms[room] then Departure(rooms, Err(KeyError))
    else
      var members := rooms[room] - {uid};
      var after := if |members| == 0 then rooms - {room} else rooms[room := members];
      assert |members| == 0 <==> rooms[room].Keys == {uid} by {
        assert members.Keys == rooms[room].Keys - {uid};
      }
      Departure(after, Recipients(after, room))
  }

  /** The corrected disconnect, as evidently intended: an absent room or identity is a
      no-op, and when the room was deleted nobody is left to notify. The
      second component is who is told `user_left`. Never raises. */
  function DisconnectSafe(rooms: Rooms, room: RoomId, uid: Uid): (r: (Rooms, set<Handle>))
    ensures room !in rooms || uid !in rooms[room] ==> r == (rooms, {})
    ensures r.0 - {room} == rooms - {room}
    ensures room in r.0 ==> room in rooms && uid !in r.0[room] && r.0[room] == rooms[room] - {uid}
    ensures room in rooms && uid in rooms[room] ==>
      && (room in r.0 <==> rooms[room].Keys != {uid})
      && r.1 == (if room in r.0 then r.0[room].Values else {})
    ensures room in rooms ==>
      forall u :: u in rooms[room] && u != uid ==> room in r.0 && u in r.0[room] && r.0[room][u] == rooms[room][u]
  {
    if room !in rooms || uid !in rooms[room] then (rooms, {})
    else
      var members := rooms[room] - {uid};
      assert |members| == 0 <==> rooms[room].Keys == {uid} by {
        assert members.Keys == rooms[room].Keys - {uid};
      }
      if |members| == 0 then (rooms - {room}, {})
      else (rooms[room := members], members.Values)
  }

  /** The finding: when the last member leaves, the as-written handler removes
      the room and then raises KeyError instead of notifying nobody. */
  lemma LastMemberDisconnectRaises(rooms: Rooms, room: RoomId, uid: Uid, h: Handle)
    requires room in rooms && rooms[room] == map[uid := h]
    ensures Disconnect(rooms, room, uid) == Departure(rooms - {room}, Err(KeyError))
  {
    assert rooms[room].Keys == {uid};
  }

  /** The corrected handler leaves the same registry as the source in every
      case, and tells the same connections whenever the source does not raise;
      where the source raises (at `del rooms[room_id][uid]` or at the second
      `rooms[room_id]`) it tells nobody. */
  lemma DisconnectSafeAgrees(rooms: Rooms, room: RoomId, uid: Uid)
    ensures DisconnectSafe(rooms, room, uid).0 == Disconnect(rooms, room, uid).rooms
    ensures Disconnect(rooms, room, uid).notified.Ok? ==>
      DisconnectSafe(rooms, room, uid).1 == Disconnect(rooms, room, uid).notified.value
    ensures Disconnect(rooms, room, uid).notified.Err? ==> DisconnectSafe(rooms, room, uid).1 == {}
  {
  }

  /** A participant who re-joins replaces its own handle; when the older,
      orphaned connection then disconnects it removes the identity, and with it
      the newer connection's registration. */
  lemma StaleDisconnectEvictsNewSession(rooms: Rooms, room: RoomId, uid: Uid, earlier: Handle, later: Handle)
    requires earlier != later
    ensures var joined := Register(Register(rooms, room, uid, earlier), room, uid, later);
      && joined[room][uid] == later
      && var left := Disconnect(joined, room, uid).rooms;
         room in left ==> uid !in left[room]
  {
  }

  /** The second finding: once the orphaned connection's disconnect has removed
      the identity, the newer connection's own disconnect raises KeyError at
      `del rooms[room_id][uid]` and changes nothing, where the corrected
      handler is a silent no-op. */
  lemma RejoinedDisconnectRaises(rooms: Rooms, room: RoomId, uid: Uid, earlier: Handle, later: Handle)
    ensures var joined := Register(Register(rooms, room, uid, earlier), room, uid, later);
      var left := Disconnect(joined, room, uid).rooms;
      && Disconnect(left, room, uid) == Departure(left, Err(KeyError))
      && DisconnectSafe(left, room, uid) == (left, {})
  {
  }
}

=== FILE: session.dfy ===
/** The websocket endpoint as a state machine over the whole server: the
    `rooms` registry and every room's store. One function per thing a
    connection does: join (handshake, default file, registration), the init
    snapshot, one received message, and disconnect. */
module Session {
  import opened Types
  import opened History
  import opened Documents
  import opened Protocol
  import Codec
  import Registry
  import Dispatch

  datatype Server = Server(rooms: Registry.Rooms, store: map<RoomId, RoomStore>)

  /** A room's store; a room nothing was ever written for reads as empty. */
  function StoreOf(s: Server, room: RoomId): RoomStore {
    if room in s.store then s.store[room] else Empty
  }

  /** The websocket close code for both handshake failures (policy violation). */
  const PolicyViolation: int := 1008

  datatype Admission = Rejected(code: int, reason: string) | Admitted(server: Server)

  /** Handshake and join. `verified` is the identity service's answer for the
      token the client sent first: the verified identity, or None when
      verification raised. Only a room not yet in the registry gets the
      default `main.js`, and only if that one file is missing. */
  function Connect(s: Server, room: RoomId, clientId: Uid, verified: Option<Uid>, h: Handle): (r: Admission)
    ensures verified.None? ==> r == Rejected(PolicyViolation, "Authentication failed")
    ensures verified.Some? && verified.value != clientId ==> r == Rejected(PolicyViolation, "Client ID mismatch")
    ensures verified == Some(clientId) ==> r.Admitted?
    ensures r.Admitted? ==>
      var before := StoreOf(s, room);
      var after := StoreOf(r.server, room);
      && room in r.server.rooms && clientId in r.server.rooms[room] && r.server.rooms[room][clientId] == h
      && (room in s.rooms ==> r.server.rooms[room] - {clientId} == s.rooms[room] - {clientId})
      && (room !in s.rooms ==> r.server.rooms[room].Keys == {clientId})
      && r.server.rooms - {room} == s.rooms - {room}
      && (MainFile in after.files <==> MainFile in before.files || room !in s.rooms)
      && (MainFile !in before.files && room !in s.rooms ==> after.files[MainFile] == DefaultContent)
      && (MainFile in before.files ==> after.files[MainFile] == before.files[MainFile])
      && after.files - {MainFile} == before.files - {MainFile}
      && after.versions == before.versions && after.cursors == before.cursors
      && forall other :: other != room ==> StoreOf(r.server, other) == StoreOf(s, other)
  {
    match verified
    case None => Rejected(PolicyViolation, "Authentication failed")
    case Some(uid) =>
      if uid != clientId then Rejected(PolicyViolation, "Client ID mismatch")
      else
        var st := StoreOf(s, room);
        var store := if room !in s.rooms && MainFile !in st.files
                     then s.store[room := st.(files := st.files[MainFile := DefaultContent])]
                     else s.store;
        Admitted(Server(Registry.Register(s.rooms, room, uid, h), store))
  }

  /** The `init` message a newly joined connection receives; `listing` is the
      order in which the store enumerates the room's file keys. */
  function InitMessage(s: Server, room: RoomId, listing: seq<FileName>): (r: Outbound)
    requires forall i :: 0 <= i < |listing| ==> listing[i] in StoreOf(s, room).files
    ensures r.Init? && |r.files| <= |listing|
    ensures Codec.CleanNames(room, StoreOf(s, room).files) &&
            (forall n :: n in StoreOf(s, room).files ==> n in listing) ==>
      r.files == StoreOf(s, room).files
  {
    var files := StoreOf(s, room).files;
    var r := Init(Codec.InitFiles(room, files, listing));
    assert Codec.CleanNames(room, files) && (forall n :: n in files ==> n in listing) ==> r.files == files by {
      if Codec.CleanNames(room, files) && (forall n :: n in files ==> n in listing) {
        Codec.InitFilesFaithful(room, files, listing);
      }
    }
    r
  }

  /** What one event did: the server afterwards, the messages sent in order,
      and the exception that ended the session, if one did. */
  datatype Step = Step(server: Server, sends: seq<Send>, raised: Option<PyError>)

  /** One message received on connection `h` of `uid` in `room`. The store is
      updated first; a `get_versions` reply goes to the sender alone; then the
      (possibly rewritten) message goes to every connection registered in the
      room, which raises KeyError if the room has no entry any more. */
  function Receive(s: Server, room: RoomId, uid: Uid, h: Handle, msg: Message, stamp: Timestamp): (r: Step)
    ensures r.server.rooms == s.rooms
    ensures forall other :: other != room ==> StoreOf(r.server, other) == StoreOf(s, other)
    ensures Dispatch.Handle(StoreOf(s, room), uid, msg, stamp).Err? ==> r == Step(s, [], Some(IndexError))
    ensures Dispatch.Handle(StoreOf(s, room), uid, msg, stamp).Ok? ==>
      var hd := Dispatch.Handle(StoreOf(s, room), uid, msg, stamp).value;
      && StoreOf(r.server, room) == hd.store
      && (msg.GetVersions? ==> |r.sends| >= 1 && r.sends[0] == Send({h}, hd.reply.value))
      && (r.raised.None? <==> room in s.rooms)
      && (r.raised.Some? ==> r.raised.value == KeyError)
      && (room in s.rooms ==> |r.sends| >= 1 && r.sends[|r.sends| - 1] == Send(s.rooms[room].Values, Echo(hd.broadcast)))
      && |r.sends| == (if msg.GetVersions? then 1 else 0) + (if room in s.rooms then 1 else 0)
  {
    match Dispatch.Handle(StoreOf(s, room), uid, msg, stamp)
    case Err(e) => Step(s, [], Some(e))
    case Ok(hd) =>
      var updated := s.(store := s.store[room := hd.store]);
      var replies := if hd.reply.Some? then [Send({h}, hd.reply.value)] else [];
      match Registry.Recipients(s.rooms, room)
      case Err(e) => Step(updated, replies, Some(e))
      case Ok(to) => Step(updated, replies + [Send(to, Echo(hd.broadcast))], None)
  }

  /** Disconnect of `uid` from `room`, by the corrected disconnect: the
      remaining members are told `user_left`, and nobody is
      when the room emptied. The store is never touched. */
  function Leave(s: Server, room: RoomId, uid: Uid): (r: Step)
    ensures r.server.store == s.store && r.raised.None?
    ensures r.server.rooms - {room} == s.rooms - {room}
    ensures room in r.server.rooms ==> uid !in r.server.rooms[room]
    ensures room in s.rooms && uid in s.rooms[room] && s.rooms[room].Keys != {uid} ==>
      && room in r.server.rooms && r.server.rooms[room] == s.rooms[room] - {uid}
      && r.sends == [Send(r.server.rooms[room].Values, UserLeft(uid))]
    ensures room !in s.rooms || uid !in s.rooms[room] ==> r == Step(s, [], None)
    ensures room in s.rooms && s.rooms[room].Keys == {uid} ==> room !in r.server.rooms && r.sends == []
  {
    var (rooms, told) := Registry.DisconnectSafe(s.rooms, room, uid);
    Step(s.(rooms := rooms), if told == {} then [] else [Send(told, UserLeft(uid))], None)
  }

  /** Leave changes the registry exactly as the source's handler does, and
      notifies exactly whom the source notifies; it differs only in raising
      nothing where the source raises KeyError: at `rooms[room_id].values()`
      after the last member's room was deleted (server/main.py:108), and at
      `del rooms[room_id][uid]` when the identity is no longer registered
      (server/main.py:105). */
  lemma LeaveMatchesSource(s: Server, room: RoomId, uid: Uid)
    ensures var d := Registry.Disconnect(s.rooms, room, uid);
      && Leave(s, room, uid).server.rooms == d.rooms
      && (d.notified.Ok? ==> Leave(s, room, uid).sends == [Send(d.notified.value, UserLeft(uid))])
      && (d.notified.Err? ==> Leave(s, room, uid).sends == [])
  {
    Registry.DisconnectSafeAgrees(s.rooms, room, uid);
    if room in s.rooms && uid in s.rooms[room] {
      var m := s.rooms[room] - {uid};
      if |m| > 0 {
        var u :| u in m;
        assert m[u] in m.Values;
      }
    }
  }

  /** A revert to a version in range, counted from the end when negative,
      reaches every member of the room with the restored code in its code
      field, which is what the file now holds. */
  lemma RevertReachesRoom(s: Server, room: RoomId, uid: Uid, h: Handle, f: FileName, i: int,
                          c: Option<string>, stamp: Timestamp)
    requires room in s.rooms
    requires -|Versions(StoreOf(s, room), f)| <= i < |Versions(StoreOf(s, room), f)|
    ensures var step := Receive(s, room, uid, h, RevertVersion(f, i, c), stamp);
      var hist := Versions(StoreOf(s, room), f);
      var code := (if i >= 0 then hist[i] else hist[|hist| + i]).code;
      && step.raised.None?
      && StoreOf(step.server, room).files[f] == code
      && step.sends == [Send(s.rooms[room].Values, Echo(RevertVersion(f, i, Some(code))))]
  {
    Dispatch.RevertEchoesRestoredCode(StoreOf(s, room), uid, f, i, c, stamp);
  }

  /** Two participants joining a room nothing is known about both see just the
      default file, and only the first join writes it. */
  lemma FirstJoinsCreateOneDefault(s: Server, room: RoomId, a: Uid, b: Uid, ha: Handle, hb: Handle)
    requires room !in s.rooms && room !in s.store
    requires !Codec.Contains(room + ":", Codec.Sep)
    ensures var s1 := Connect(s, room, a, Some(a), ha).server;
      var s2 := Connect(s1, room, b, Some(b), hb).server;
      && StoreOf(s1, room).files == map[MainFile := DefaultContent]
      && StoreOf(s2, room) == StoreOf(s1, room)
      && s2.rooms[room].Keys == {a, b}
      && InitMessage(s1, room, [MainFile]) == Init(map[MainFile := DefaultContent])
      && InitMessage(s2, room, [MainFile]) == Init(map[MainFile := DefaultContent])
  {
    var s1 := Connect(s, room, a, Some(a), ha).server;
    var s2 := Connect(s1, room, b, Some(b), hb).server;
    assert StoreOf(s1, room).files.Keys == {MainFile};
    Codec.NoLeadNoSep(MainFile);
    Codec.InitFilesFaithful(room, StoreOf(s1, room).files, [MainFile]);
    Codec.InitFilesFaithful(room, StoreOf(s2, room).files, [MainFile]);
  }

  /** An update is in the store before it is broadcast, so anyone who joins
      afterwards is sent the updated content in the init snapshot. */
  lemma UpdateVisibleToLaterJoin(s: Server, room: RoomId, uid: Uid, h: Handle, f: FileName, code: string,
                                 stamp: Timestamp, joiner: Uid, hj: Handle, listing: seq<FileName>)
    requires room in s.rooms
    requires !Codec.Contains(room + ":", Codec.Sep)
    requires !Codec.Contains(f, Codec.Sep)
    requires forall n :: n in StoreOf(s, room).files ==> !Codec.Contains(n, Codec.Sep)
    requires forall n :: n in listing <==> n in StoreOf(s, room).files || n == f
    ensures var s1 := Receive(s, room, uid, h, CodeUpdate(f, code), stamp).server;
      var s2 := Connect(s1, room, joiner, Some(joiner), hj).server;
      && f in StoreOf(s2, room).files
      && InitMessage(s2, room, listing) == Init(StoreOf(s1, room).files)
      && InitMessage(s2, room, listing).files[f] == code
  {
    var s1 := Receive(s, room, uid, h, CodeUpdate(f, code), stamp).server;
    var s2 := Connect(s1, room, joiner, Some(joiner), hj).server;
    var files := StoreOf(s1, room).files;
    assert StoreOf(s2, room) == StoreOf(s1, room);
    forall n | n in files
      ensures !Codec.Contains(n, Codec.Sep)
    {
      if n != f {
        assert n in files - {f};
      }
    }
    forall n
      ensures n in listing <==> n in files
    {
      if n != f {
        assert n in files <==> n in files - {f};
      }
    }
    Codec.InitFilesFaithful(room, files, listing);
  }

  /** A participant who joined twice keeps an orphaned first connection. If
      that one disconnects first it deletes the room entry, and the next
      message on the newer connection is applied to the store and then raises
      KeyError at the broadcast, ending that session too. */
  lemma OrphanedSessionCrashes(s: Server, room: RoomId, uid: Uid, h1: Handle, h2: Handle,
                               f: FileName, code: string, stamp: Timestamp)
    requires room !in s.rooms
    ensures var s1 := Connect(s, room, uid, Some(uid), h1).server;
      var s2 := Connect(s1, room, uid, Some(uid), h2).server;
      var s3 := Leave(s2, room, uid).server;
      var step := Receive(s3, room, uid, h2, CodeUpdate(f, code), stamp);
      && room !in s3.rooms
      && step.raised == Some(KeyError)
      && StoreOf(step.server, room).files[f] == code
  {
    var s1 := Connect(s, room, uid, Some(uid), h1).server;
    var s2 := Connect(s1, room, uid, Some(uid), h2).server;
    assert s2.rooms[room].Keys == {uid};
  }

  /** The server of the worked example after A has joined room "r1". */
  function ExampleJoined(h: Handle): Server {
    Connect(Server(map[], map[]), "r1", "A", Some("A"), h).server
  }

  /** The worked example, first step: A joins room "r1", is its only member,
      and receives just the default main.js. */
  lemma ExampleJoin(h: Handle)
    ensures ExampleJoined(h).rooms == map["r1" := map["A" := h]]
    ensures StoreOf(ExampleJoined(h), "r1") == Empty.(files := map[MainFile := DefaultContent])
    ensures InitMessage(ExampleJoined(h), "r1", [MainFile]) == Init(map[MainFile := DefaultContent])
  {
    var s1 := ExampleJoined(h);
    assert StoreOf(s1, "r1").files.Keys == {MainFile};
    Codec.NoLeadNoSep("r1" + ":");
    Codec.NoLeadNoSep(MainFile);
    Codec.InitFilesFaithful("r1", StoreOf(s1, "r1").files, [MainFile]);
  }

  /** The worked example, second step: A sets main.js to "x=1". */
  function ExampleUpdated(h: Handle, t: Timestamp): Step {
    Receive(ExampleJoined(h), "r1", "A", h, CodeUpdate(MainFile, "x=1"), t)
  }

  /** The update is echoed to A, and the store holds the new content with the
      default content as its one version. */
  lemma ExampleUpdate(h: Handle, t: Timestamp)
    ensures ExampleUpdated(h, t).raised.None?
    ensures ExampleUpdated(h, t).sends == [Send({h}, Echo(CodeUpdate(MainFile, "x=1")))]
    ensures StoreOf(ExampleUpdated(h, t).server, "r1").files == map[MainFile := "x=1"]
    ensures Versions(StoreOf(ExampleUpdated(h, t).server, "r1"), MainFile) == [Version(DefaultContent, t)]
  {
    var s1 := ExampleJoined(h);
    assert s1.rooms == map["r1" := map["A" := h]];
    assert s1.rooms["r1"].Values == {h};
    var st1 := StoreOf(s1, "r1");
    assert st1 == Empty.(files := map[MainFile := DefaultContent]);
    var st2 := WriteCode(st1, MainFile, "x=1", t);
    var hd := Dispatch.Handle(st1, "A", CodeUpdate(MainFile, "x=1"), t);
    assert hd.Ok? && hd.value.store == st2 && hd.value.broadcast == CodeUpdate(MainFile, "x=1");
    assert st2.files == map[MainFile := "x=1"];
    assert Versions(st2, MainFile) == [Version(DefaultContent, t)];
  }

  /** After the update, a snapshot shows "x=1" and `get_versions` replies with
      the one record holding the default content. */
  lemma ExampleAfterUpdate(h: Handle, t: Timestamp, t2: Timestamp)
    ensures InitMessage(ExampleUpdated(h, t).server, "r1", [MainFile]) == Init(map[MainFile := "x=1"])
    ensures Receive(ExampleUpdated(h, t).server, "r1", "A", h, GetVersions(MainFile), t2).sends[0] ==
      Send({h}, VersionList(MainFile, [Version(DefaultContent, t)]))
  {
    ExampleUpdate(h, t);
    var files := StoreOf(ExampleUpdated(h, t).server, "r1").files;
    Codec.NoLeadNoSep("r1" + ":");
    Codec.NoLeadNoSep(MainFile);
    Codec.InitFilesFaithful("r1", files, [MainFile]);
  }
}

=== FILE: types.dfy ===
/** Shared vocabulary of the collaborative-editing server model: identifiers,
    the optional and fallible result types, and two small sequence helpers. */
module Types {

  /** A value that may be missing: a Redis key that does not exist, a failed
      identity check. */
  datatype Option<+T> = None | Some(value: T)

  /** The Python exceptions the session handler raises and does not catch. */
  datatype PyError = KeyError | IndexError

  /** Either the value an operation produced or the exception it raised. */
  datatype Result<+T> = Ok(value: T) | Err(error: PyError)

  type RoomId = string
  type Uid = string
  type FileName = string

  /** An ISO-8601 time stamp; the clock is replaced by a value the caller supplies. */
  type Timestamp = string

  /** The JSON text of a cursor position, stored verbatim in the cursor hash. */
  type Position = string

  /** A live connection, identified opaquely; the transport owns the socket. */
  type Handle = nat

  function Min(a: int, b: int): int {
    if a <= b then a else b
  }

  /** The first `n` elements of `s`, or all of `s` when it is shorter. */
  function Take<T>(s: seq<T>, n: nat): (r: seq<T>)
    ensures |r| == Min(n, |s|)
    ensures forall i :: 0 <= i < |r| ==> r[i] == s[i]
  {
    s[..Min(n, |s|)]
  }

  function Reverse<T>(s: seq<T>): (r: seq<T>)
    ensures |r| == |s|
    ensures forall i :: 0 <= i < |s| ==> r[i] == s[|s| - 1 - i]
  {
    if |s| == 0 then [] else Reverse(s[1..]) + [s[0]]
  }
}
